=== FILE: README.md ===
# flatnotes: note index and search core, modelled in Dafny

flatnotes keeps a Whoosh full-text index over a directory of Markdown notes.
Before every search it reconciles the index with the files on disk: entries
of vanished files are deleted, entries of modified files are rewritten, and
new files are added. Hashtags in a note's content are pulled out into a
separate `tags` field. A search term has its hashtags rewritten into
`tags:` filters, then it is parsed. The caller's sort key and order are
turned into the searcher's `sortedby`/`reverse` arguments. Each hit becomes
a `SearchResult` holding the matched fields, the score and highlights. A
small policy module decides which routes need a bearer token and whether a
token is accepted.

The model holds the pure decision logic of that core. It uses immutable
values and pure functions. The one exception is `update_index`, which is
written as methods whose loops follow the source's loops.

| module (file) | models |
|---|---|
| `Text` (text.dfy) | whitespace and word-character classes, `str.strip`, `str.lower` |
| `Notes` (notes.dfy) | title validation, the stripped-title constructor, `filename` |
| `Tags` (tags.dfy) | `TAGS_RE`, `re_extract` as span removal, `extract_tags` |
| `Keywords` (keywords.dfy) | the space-joined tag string and how the KEYWORD field splits it |
| `SearchTerm` (search_term.dfy) | `TAGS_WITH_HASH_RE` and `pre_process_search_term` |
| `Search` (search.dfy) | the `*` query, sort key and `reverse` selection, search after reconciliation |
| `Sync` (sync.dfy) | `update_index(clean=False)`, `_get_notes`, `_add_note_to_index` |
| `SearchResults` (search_result.dfy) | `SearchResult.__init__` and `_get_matched_fields` |
| `Auth` (auth.dfy) | `get_auth`, `validate_token`, the payload of `create_access_token` |
| `Results` (results.dfy) | `Option`/`Result`, standing in for `None` and raised exceptions |

Things outside the modelled code are parameters. The note store is a map
from file name to `NoteFile(mtime, atRoot, content)`. The search library's
matcher and highlighter are function parameters. So are JWT encoding and
decoding, and the current time is an integer parameter.

Three behaviours of the code are worth knowing when reading the model:

- `TAGS_RE` matches the word after `#` through a look-behind, so the `#`
  is not part of the match. Removing the matched spans leaves the `#` in
  place: for `"Shopping #groceries list"` the tag set is `{"groceries"}`
  and span removal gives `"Shopping # list"`. `re_extract` is not part of
  this model, so no claim is made about the exact stripped text beyond
  what `Tags.ReExtract` states.
- An indexed file name is checked for existence only at
  `os.path.join(dir, filename)`, directly in the notes directory, while
  the scan that adds notes is recursive. So every note in a subdirectory
  is deleted and re-added on every reconciliation
  (`Sync.SecondSyncRewritesNestedNotes`). The resulting index is still one
  entry per file.
- `hit.score` is kept whenever it is a float, whatever the sort order.

## Model

| member | source | states |
|---|---|---|
| `Text.Strip` | flatnotes/flatnotes.py:299 | the result has no whitespace at either end and is a contiguous part of the input with only whitespace removed around it |
| `Text.SpaceEnd` | flatnotes/flatnotes.py:299 | the left scan of `strip` stops at the first non-whitespace character, having passed only whitespace |
| `Text.SpaceStart` | flatnotes/flatnotes.py:299 | the right scan of `strip` stops after the last non-whitespace character, having passed only whitespace |
| `Text.StripStripped` | flatnotes/flatnotes.py:48 | a title with no whitespace at either end is kept as it is |
| `Text.StripIdempotent` | flatnotes/flatnotes.py:48 | stripping an already stripped title changes nothing |
| `Text.Lower` | flatnotes/flatnotes.py:222 | lowercasing keeps the length and maps every character on its own |
| `Text.LowerIdempotent` | flatnotes/flatnotes.py:222 | a lowercased text is lowercase, and lowercasing it again changes nothing |
| `Text.LowerCharAlphabet` | flatnotes/flatnotes.py:222 | each uppercase ASCII letter becomes the lowercase letter at the same place in the alphabet |
| `Text.LowerExample` | flatnotes/auth.py:34 | `"AbZ_9"` lowercases to `"abz_9"`: letters are lowered and digits and `_` are kept |
| `Notes.IsValidTitle` | flatnotes/flatnotes.py:115-119 | a title is valid exactly when none of its characters is one of `<>:"/\|?*` |
| `Notes.AnyOccurs` | flatnotes/flatnotes.py:119 | the `any(...)` over the forbidden characters is true exactly when one of them occurs in the title |
| `Notes.MakeNote` | flatnotes/flatnotes.py:45-51 | constructing an existing note succeeds exactly when the stripped title is valid, fails with InvalidTitle otherwise, and stores the stripped title |
| `Notes.StripExt` | flatnotes/flatnotes.py:248 | a name ending in `.md` loses exactly that suffix, and any other name is returned unchanged |
| `Notes.Note.Filename` | flatnotes/flatnotes.py:76-77 | the file name is the title followed by the `.md` extension |
| `Notes.FilenameRoundTrip` | flatnotes/flatnotes.py:76-77 | a note's file name is its title followed by `.md`: removing the extension gives the title back |
| `Notes.FilenameInjective` | flatnotes/flatnotes.py:76-77 | two notes share a file name exactly when they share a title, so the `filename` key identifies the note |
| `Notes.ValidFilenameHasNoSeparator` | flatnotes/flatnotes.py:266 | a valid title's file name has no `/` or `\`, so joining it onto the notes directory names a file directly in it |
| `Notes.NoteOfFilename` | flatnotes/flatnotes.py:250 | the constructor called on a stored or scanned note file name succeeds exactly when the title is valid, and gives the note titled by the name without `.md`, whose file name is that name again |
| `Tags.IsTagAt` | flatnotes/flatnotes.py:178 | a match of `TAGS_RE` is a maximal run of word characters: the `#` before it and the character after it are not word characters |
| `Tags.TagEndsAtWordEnd` | flatnotes/flatnotes.py:178 | a match of the tag pattern always ends where its run of word characters ends |
| `Tags.ScanFrom` | flatnotes/flatnotes.py:178 | the kept text plus the matched texts add up to the scanned input, and with no match the whole input is kept |
| `Tags.ScanSound` | flatnotes/flatnotes.py:178 | every match the scan returns is a word run after a `#` that starts the content or follows whitespace, ending at whitespace or the end; the matches are in order and do not overlap |
| `Tags.MatchIsWord` | flatnotes/flatnotes.py:178 | the text of a match is a non-empty run of word characters |
| `Tags.ScanFindsEveryTag` | flatnotes/flatnotes.py:178 | every position where the pattern matches is among the matches the scan finds |
| `Tags.ReExtract` | flatnotes/flatnotes.py:220 | content without any match comes back unchanged, and removing matches never lengthens it |
| `Tags.ReExtractWords` | flatnotes/flatnotes.py:178 | every matched text is a non-empty run of word characters |
| `Tags.ReExtractExact` | flatnotes/flatnotes.py:220 | the matched texts are exactly the texts at which the tag pattern matches |
| `Tags.TagList` | flatnotes/flatnotes.py:222 | the lowercased tag list has one entry per match of the pattern |
| `Tags.TagListTags` | flatnotes/flatnotes.py:222 | every entry of the lowercased match list is a non-empty lowercase word |
| `Tags.TagListExact` | flatnotes/flatnotes.py:222 | a string is in the tag list exactly when it is the lowercase form of some match |
| `Tags.LowerWordIsTag` | flatnotes/flatnotes.py:222 | lowercasing a matched word gives a tag: a non-empty lowercase word |
| `Tags.ExtractTags` | flatnotes/flatnotes.py:214-225 | with no tags found, the content is returned unchanged |
| `Tags.ExtractedSetOfList` | flatnotes/flatnotes.py:223 | the tag set holds each string of the lowercased match list, with no repeats |
| `Tags.ExtractedAreTags` | flatnotes/flatnotes.py:222-223 | every extracted tag is lowercase and a non-empty word |
| `Tags.ExtractTagsExact` | flatnotes/flatnotes.py:215-223 | a tag is in the set exactly when it is the lowercase form of some match of the tag pattern, so `#` inside words or before punctuation yields no tag |
| `Keywords.Dedup` | flatnotes/flatnotes.py:223 | the set's elements, each once, with the same membership as the list |
| `Keywords.JoinWords` | flatnotes/flatnotes.py:234 | joining no words gives the empty string; otherwise the joined string starts with the first word and is one space shorter than the words each followed by a space |
| `Keywords.SplitKeywords` | flatnotes/flatnotes.py:35 | the KEYWORD field's tokens are non-empty and contain no separator |
| `Keywords.SplitJoin` | flatnotes/flatnotes.py:234 | splitting the space-joined words gives back the words in order when none is empty or contains a separator |
| `Keywords.KeywordFieldKeepsTags` | flatnotes/flatnotes.py:233-240 | the terms the `tags` field reads from the joined tag string are exactly the distinct tags |
| `SearchTerm.IsHashTagAt` | flatnotes/flatnotes.py:179 | `TAGS_WITH_HASH_RE` matches `#name` exactly where `TAGS_RE` matches `name` |
| `SearchTerm.HashTagEnd` | flatnotes/flatnotes.py:179 | a match of the hashtag pattern ends where its word run ends |
| `SearchTerm.RewriteRange` | flatnotes/flatnotes.py:301-305 | the left-to-right scan of `re.sub`: at each position it either replaces a whole match `#name` by `tags:name` or copies one character; its contract is stated by the lemmas below |
| `SearchTerm.Rewrite` | flatnotes/flatnotes.py:301-305 | the substitution never shortens the term, and leaves a term with no standalone hashtag unchanged |
| `SearchTerm.RewriteCopiesRange` | flatnotes/flatnotes.py:301-305 | a part of the term holding no match of the hashtag pattern is copied unchanged, since `re.sub` keeps every character outside its matches |
| `SearchTerm.RewriteLength` | flatnotes/flatnotes.py:301-305 | the substitution never shortens the text, since each `#` becomes the longer `tags:` |
| `SearchTerm.RewriteFirst` | flatnotes/flatnotes.py:301-305 | the rewritten text starts with the original first character or with the `t` of `tags:` |
| `SearchTerm.RewriteLast` | flatnotes/flatnotes.py:301-305 | the rewritten text ends with the original last character, because a match ends on a word character |
| `SearchTerm.RewriteKeepsStripped` | flatnotes/flatnotes.py:299-305 | substituting hashtags in a stripped term leaves it without surrounding whitespace |
| `SearchTerm.StepAtHashTag` | flatnotes/flatnotes.py:301-303 | at a hashtag match the substitution consumes exactly the match and emits `tags:` followed by the name without the `#` |
| `SearchTerm.RewriteSplit` | flatnotes/flatnotes.py:301-305 | the substitution can be done separately on both sides of any position that holds no word character |
| `SearchTerm.PreProcess` | flatnotes/flatnotes.py:298-306 | the preprocessed term has no surrounding whitespace, is never shorter than the stripped term, and equals the stripped term when it holds no standalone hashtag |
| `SearchTerm.HashTagBecomesFilter` | flatnotes/flatnotes.py:300-305 | each standalone `#name` of the stripped term is replaced in place by `tags:name` |
| `SearchTerm.RewriteOneHashTag` | flatnotes/flatnotes.py:301-305 | in a text with exactly one match, the match `#name` becomes `tags:name` and every other character is kept in place |
| `SearchTerm.PreProcessOneHashTag` | flatnotes/flatnotes.py:298-306 | a term whose stripped form holds one standalone hashtag becomes the stripped term with that hashtag turned into `tags:name` and nothing else changed |
| `SearchTerm.PreProcessExample` | flatnotes/flatnotes.py:298-306 | `" a #b c "` is preprocessed to `"a tags:b c"` |
| `SearchTerm.RewriteAroundHashTag` | flatnotes/flatnotes.py:301-305 | the substitution over a whole text, split around one of its matches, puts the filter where the match was |
| `Search.SortKey` | flatnotes/flatnotes.py:333 | "title" and "last_modified" are kept, and every other sort key becomes score order |
| `Search.ReverseFlag` | flatnotes/flatnotes.py:338-340 | for a field sort, reverse is order == "desc"; for score order it is the negation |
| `Search.BuildQuery` | flatnotes/flatnotes.py:320-327 | the term `*` gives the match-all query, and any other term is parsed over title, content and tags |
| `Search.PlanSearch` | flatnotes/flatnotes.py:317-347 | the query matches everything exactly when the stripped term is `*`, and otherwise parses the preprocessed term over title, content and tags; a sort field is used exactly for "title" and "last_modified", and it is the title field for "title" and the modification time for "last_modified"; given how the searcher reads `reverse`, hits come highest first exactly when the order is "desc"; the limit is passed on unchanged |
| `Search.MatchAllIffStar` | flatnotes/flatnotes.py:317-321 | the preprocessed term is `*` exactly when the raw term is `*` after stripping |
| `Search.Selected` | flatnotes/flatnotes.py:320-321 | the match-all query selects every indexed file name; any query selects only indexed ones |
| `Search.RunSearch` | flatnotes/flatnotes.py:316-349 | a search first reconciles the index and fails on an invalid title; `*` then selects exactly the note files on disk, so deleted notes are gone |
| `Sync.NoteEntry` | flatnotes/flatnotes.py:227-241 | the written document carries the file's modification time, the note's title and the file's content |
| `Sync.NoteEntryFields` | flatnotes/flatnotes.py:233-240 | the written document's `content` field is the content without its tags, and its `tags` field holds exactly the extracted tags |
| `Sync.IndexEntry.TagTerms` | flatnotes/flatnotes.py:233-240 | the tags field of a written document holds exactly the tags extracted from the note's content |
| `Sync.ExistsAtRoot` | flatnotes/flatnotes.py:266-268 | the existence check joins the indexed name onto the notes directory itself, so only a file directly in that directory passes |
| `Sync.IsStale` | flatnotes/flatnotes.py:272-275 | an entry that passed the existence check is stale when its file's modification time differs from the stored one |
| `Sync.Reconciled` | flatnotes/flatnotes.py:256-289 | after reconciliation there is one entry per scanned file, and each entry's time is its file's time |
| `Sync.Reindex` | flatnotes/flatnotes.py:271-280 | rewriting a stale entry fails exactly when its title is invalid, and otherwise gives the document of the file's current content and time |
| `Sync.VisitIndexed` | flatnotes/flatnotes.py:263-283 | the first pass deletes the keys whose file is not directly in the notes directory, rewrites the stale ones, keeps the rest, and marks the kept and rewritten keys seen |
| `Sync.BuildNotes` | flatnotes/flatnotes.py:243-254 | a note is built for every scanned file, and the scan fails exactly when some title is invalid |
| `Sync.AddUnseen` | flatnotes/flatnotes.py:284-288 | the second pass writes exactly the scanned files not seen; none of these keys has a committed document left, and the store holds one file per name, so each key is written once |
| `Sync.PassesReconcile` | flatnotes/flatnotes.py:263-288 | the first pass and the second pass together leave exactly the reconciled index |
| `Sync.UpdateIndex` | flatnotes/flatnotes.py:256-289 | reconciliation fails (committing nothing) exactly when a scanned title is invalid; otherwise the index is the reconciled one and the deleted, rewritten and added keys are as classified |
| `Sync.StaleEntryRefreshed` | flatnotes/flatnotes.py:271-280 | a stale entry gets the file's new time and the tags of its current content |
| `Sync.UnchangedEntryKept` | flatnotes/flatnotes.py:281-283 | an unchanged entry of a file in the notes directory is left exactly as it was |
| `Sync.EntryCountMatchesFiles` | flatnotes/flatnotes.py:256-289 | after reconciliation the number of entries equals the number of note files |
| `Sync.ReconcileIdempotent` | flatnotes/flatnotes.py:256-289 | reconciling twice against the same files gives the same index as once |
| `Sync.SecondSyncRewritesNestedNotes` | flatnotes/flatnotes.py:266-269 | a second reconciliation rewrites nothing in place, but still deletes and re-adds every note kept in a subdirectory |
| `SearchResults.MatchedFields` | flatnotes/flatnotes.py:171-174 | the matched fields are exactly the field names among the matched pairs |
| `SearchResults.TagTerms` | flatnotes/flatnotes.py:148-152 | the tag matches are never more than the matched pairs |
| `SearchResults.TagTermsSingle` | flatnotes/flatnotes.py:149 | one pair contributes its term exactly when its field is "tags" |
| `SearchResults.TagTermsAppend` | flatnotes/flatnotes.py:149 | the tag matches of two runs of pairs are those of the first followed by those of the second, so order and repeats are kept |
| `SearchResults.TagTermsExact` | flatnotes/flatnotes.py:149 | a string is among the tag matches exactly when some matched pair is ("tags", that string) |
| `SearchResults.TagTermsExactAll` | flatnotes/flatnotes.py:149 | for every string at once: it is a tag match exactly when ("tags", it) is a matched pair |
| `SearchResults.TagTermsEmpty` | flatnotes/flatnotes.py:148-152 | the tag matches are empty exactly when "tags" is not a matched field |
| `SearchResults.MakeResult` | flatnotes/flatnotes.py:123-152 | the result fails exactly on an invalid title. The score is kept exactly when it is a float. Title and content highlights are present exactly when their field matched, and the content one is taken from the tag-free content. Tag matches are present exactly when "tags" matched, are then non-empty, and are the tag terms of the matched pairs in order, with repeats |
| `Auth.GetAuth` | flatnotes/auth.py:49-59 | NONE never asks for a token; the edit-only types do not for reads; every other case requires a token |
| `Auth.EditAtLeastAsGuarded` | flatnotes/auth.py:49-59 | editing is guarded whenever reading is, and exactly when the type is not NONE |
| `Auth.ValidateTokenResult` | flatnotes/auth.py:26-42 | under NONE every token passes, whatever decoding would say; otherwise a token passes exactly when it decodes to a payload whose `sub` equals the username ignoring case; a `sub` that is present but neither a string nor `null` makes `.lower()` raise uncaught, and every other refusal is the 401 with the Bearer challenge |
| `Auth.NullSubjectRefused` | flatnotes/auth.py:33-42 | a `sub` of JSON `null` reads as `None`, so the token is refused with the 401 rather than raising |
| `Auth.TokenPayload` | flatnotes/auth.py:14-19 | the signed payload is the caller's claims plus `exp` at now plus the session lifetime in days |
| `Auth.CreateAccessToken` | flatnotes/auth.py:14-23 | the token is the encoding, under the session key, of the caller's claims with `exp` set to now plus the session lifetime |
| `Auth.IssuedTokenAccepted` | flatnotes/auth.py:14-42 | a token minted for the configured user is accepted, provided decoding returns what encoding signed |

## Left out

- File I/O of `Note`: reading and writing content, the rename done by the title setter, and `delete`. These are operating-system side effects, and the note store map stands in for them.
- Notes.MakeNote: models only `new=False`, the value every modelled caller passes. With `new=True` the constructor never returns a note: when the glob finds a path containing the file name it raises `FileExistsError`, and otherwise `filepath` is the empty string, so `open("", "w")` fails.
- The glob-based `filepath` lookup of `Note`: it picks the last file whose path contains the file name as a substring. The store is keyed by file name instead. Two notes with the same base name in different directories are not modelled, and neither is a base name with surrounding whitespace, which the constructor would strip into a different key (`Sync.WellFormedStore`).
- Whoosh internals: analyzers, stemming, the query grammar with its date plugin, scoring, hit ordering, `limit`, fragmenters and highlight text. These are library calls. The matcher and highlighter are function parameters, and `limit` is only passed through.
- Index directory loading, creation and schema-version handling, and `update_index(clean=True)`. This is filesystem plumbing, and the effect of `writing.CLEAR` is not visible in the code.
- `get_tags`: it calls `update_index_debounced`, which is not defined in the code, and otherwise only reads the library's term list.
- `helpers.re_extract` and `helpers.strip_ext` are not part of this model. `re_extract` is modelled as removing the matched spans and returning the matches. `strip_ext` is modelled as dropping a trailing `.md`.
- Tags.ReExtract: states only that content without a match is unchanged and that removal never lengthens it. The exact stripped text depends on `re_extract`, which is not part of this model.
- The `except IndexError` branch of `extract_tags`: nothing in the modelled `re_extract` can raise it.
- Text.IsWordChar: covers ASCII letters, digits and `_` only. Python's Unicode `\w` also accepts other letters and digits, so tags with non-ASCII letters are not modelled.
- Text.Lower: lowercases ASCII letters only, so case-insensitive usernames with non-ASCII letters are not modelled. Tags are unaffected, because they are ASCII words here.
- The iteration order of the Python tag set in `" ".join(tag_set)`: the model joins in first-occurrence order. The stored terms do not depend on that order, because `Keywords.SplitJoin` gives back any joined list of distinct tags in the same order, so any order of the set yields the same terms.
- Timestamps: `datetime.fromtimestamp` values are modelled as integers. The expiry is `now + days * 86400` seconds, with `now` standing for `datetime.utcnow()`.
- JWT signing and verification, FastAPI `Depends`/`HTTPException`, `config` and logging. These are crypto, framework and configuration plumbing. Decoding and encoding are function parameters, the configuration is a value, and the HTTP error is a value.
- Concurrency and the writer lock: a failed run is modelled as committing nothing.

=== FILE: auth.dfy ===
/** Access policy (`auth.py`): which dependency guards a route, whether a
    bearer token is accepted, and the payload of a new token. Signing and
    verifying the token belong to the JWT library and appear here as
    functions supplied by the caller; the clock is a parameter. */
module Auth {
  import opened Results
  import opened Text

  /** The configured authentication type. `config.py`, which defines the
      enumeration, is not part of this model: the source distinguishes NONE
      and the two edit-only types, and every other member behaves alike. */
  datatype AuthType = AuthNone | PasswordEditOnly | TotpEditOnly | OtherAuthType(name: string)

  datatype AuthConfig = AuthConfig(authType: AuthType, username: string, sessionKey: string, sessionExpiryDays: int)

  /** The dependency `get_auth` returns: `no_auth` or `validate_token`. */
  datatype Dependency = NoAuth | ValidateToken

  /** A claim value of a token payload: a string, any other non-null value
      (standing for numbers such as `exp`, lists and objects alike), or JSON
      `null`, which `payload.get` returns as `None` just as for a missing
      claim. */
  datatype Claim = Text(text: string) | Number(value: int) | Null

  type Payload = map<string, Claim>

  /** An HTTP error response. */
  datatype HttpError = HttpError(status: int, detail: string, headers: seq<(string, string)>)

  /** Why a token is refused: the 401 response, or a `sub` claim that is not
      a string, on which `.lower()` raises an error the handler does not
      catch. */
  datatype TokenError = Unauthorized(response: HttpError) | SubjectNotText

  const SecondsPerDay: int := 86400

  const CredentialsError: HttpError :=
    HttpError(401, "Invalid authentication credentials", [("WWW-Authenticate", "Bearer")])

  predicate IsEditOnly(t: AuthType) {
    t == PasswordEditOnly || t == TotpEditOnly
  }

  /** `get_auth`: no check at all under NONE, none for reading under an
      edit-only type, a token everywhere else. */
  function GetAuth(authType: AuthType, forEdit: bool): (d: Dependency)
    ensures authType == AuthNone ==> d == NoAuth
    ensures IsEditOnly(authType) && !forEdit ==> d == NoAuth
    ensures d == ValidateToken <==> authType != AuthNone && (forEdit || !IsEditOnly(authType))
  {
    if authType == AuthNone then NoAuth
    else if IsEditOnly(authType) && !forEdit then NoAuth
    else ValidateToken
  }

  /** Editing is never guarded less than reading: if reading needs a token,
      so does editing, and any type but NONE guards editing. */
  lemma EditAtLeastAsGuarded(authType: AuthType)
    ensures GetAuth(authType, false) == ValidateToken ==> GetAuth(authType, true) == ValidateToken
    ensures authType != AuthNone <==> GetAuth(authType, true) == ValidateToken
  {
  }

  /** `validate_token`. Under NONE every token passes without being decoded.
      Otherwise the token passes exactly when it decodes (`decode` stands for
      `jwt.decode` with the session key) to a payload whose `sub` equals the
      configured username ignoring case; every other outcome is the 401
      response with the Bearer challenge. */
  function ValidateTokenResult(cfg: AuthConfig, token: string, decode: (string, string) -> Option<Payload>): (r: Result<(), TokenError>)
    ensures cfg.authType == AuthNone ==> r.Ok?
    ensures cfg.authType != AuthNone ==>
              (r.Ok? <==> Accepted(decode(token, cfg.sessionKey), cfg.username))
    ensures cfg.authType != AuthNone ==>
              (r == Err(SubjectNotText) <==> SubjectIsNotText(decode(token, cfg.sessionKey)))
    ensures r.Err? && !r.error.SubjectNotText? ==> r.error == Unauthorized(CredentialsError)
  {
    if cfg.authType == AuthNone then Ok(())
    else
      match decode(token, cfg.sessionKey)
      case None => Err(Unauthorized(CredentialsError))
      case Some(payload) =>
        if "sub" !in payload then Err(Unauthorized(CredentialsError))
        else match payload["sub"]
          case Text(sub) =>
            if Lower(sub) != Lower(cfg.username) then Err(Unauthorized(CredentialsError)) else Ok(())
          case Number(_) => Err(SubjectNotText)
          case Null => Err(Unauthorized(CredentialsError))
  }

  /** The acceptance rule: a decoded payload whose subject names the user,
      ignoring case. */
  predicate Accepted(decoded: Option<Payload>, username: string) {
    && decoded.Some?
    && "sub" in decoded.value
    && decoded.value["sub"].Text?
    && Lower(decoded.value["sub"].text) == Lower(username)
  }

  /** A decoded payload whose `sub` claim is present but is neither a string
      nor `null`. */
  predicate SubjectIsNotText(decoded: Option<Payload>) {
    decoded.Some? && "sub" in decoded.value && decoded.value["sub"].Number?
  }

  /** The payload `create_access_token` signs: a copy of the given claims
      with `exp` set to `now` plus the session lifetime. The caller's
      claims are a value and stay as they were. */
  function TokenPayload(data: Payload, now: int, expiryDays: int): (p: Payload)
    ensures p.Keys == data.Keys + {"exp"}
    ensures p["exp"] == Number(now + expiryDays * SecondsPerDay)
    ensures forall k | k in data && k != "exp" :: p[k] == data[k]
  {
    data["exp" := Number(now + expiryDays * SecondsPerDay)]
  }

  /** `create_access_token`; `encode` stands for `jwt.encode` with the
      session key. */
  function CreateAccessToken(cfg: AuthConfig, data: Payload, now: int, encode: (Payload, string) -> string): (token: string)
    ensures exists p: Payload ::
              && token == encode(p, cfg.sessionKey)
              && p.Keys == data.Keys + {"exp"}
              && p["exp"] == Number(now + cfg.sessionExpiryDays * SecondsPerDay)
              && (forall k | k in data && k != "exp" :: p[k] == data[k])
  {
    encode(TokenPayload(data, now, cfg.sessionExpiryDays), cfg.sessionKey)
  }

  /** A token minted for the configured user (in any letter case) is
      accepted, provided decoding gives back what encoding signed. */
  lemma IssuedTokenAccepted(cfg: AuthConfig, data: Payload, now: int,
                            encode: (Payload, string) -> string, decode: (string, string) -> Option<Payload>)
    requires "sub" in data && data["sub"].Text? && Lower(data["sub"].text) == Lower(cfg.username)
    requires var p := TokenPayload(data, now, cfg.sessionExpiryDays);
             decode(encode(p, cfg.sessionKey), cfg.sessionKey) == Some(p)
    ensures ValidateTokenResult(cfg, CreateAccessToken(cfg, data, now, encode), decode).Ok?
  {
    var p := TokenPayload(data, now, cfg.sessionExpiryDays);
    assert p["sub"] == data["sub"];
  }

  /** A `sub` claim of JSON `null` is refused with the 401, like a missing
      one, not with the uncaught error of a non-string subject. */
  lemma NullSubjectRefused(cfg: AuthConfig, token: string, decode: (string, string) -> Option<Payload>)
    requires cfg.authType != AuthNone
    requires decode(token, cfg.sessionKey).Some?
    requires var p := decode(token, cfg.sessionKey).value; "sub" in p && p["sub"] == Null
    ensures ValidateTokenResult(cfg, token, decode) == Err(Unauthorized(CredentialsError))
  {
  }
}

=== FILE: keywords.dfy ===
/** How a tag set travels into the index: `_add_note_to_index` joins the tags
    with single spaces, and the `tags` KEYWORD field splits that string back
    into lowercase terms. */
module Keywords {
  import opened Text

  /** The separators the keyword field's tokenizer splits on. */
  predicate IsKeywordSep(c: char) {
    c == ' ' || c == '\t' || c == '\r' || c == '\n'
  }

  predicate IsKeyword(t: string) {
    |t| > 0 && forall i | 0 <= i < |t| :: !IsKeywordSep(t[i])
  }

  /** The length the words take when each is followed by one space. */
  function Width(ts: seq<string>): nat {
    if ts == [] then 0 else |ts[0]| + 1 + Width(ts[1..])
  }

  /** `" ".join(ts)`: the words in order with one space between neighbours,
      so the string begins with the first word and is one shorter than the
      words with a space after each. */
  function JoinWords(ts: seq<string>): (s: string)
    ensures ts == [] ==> s == ""
    ensures ts != [] ==> |s| + 1 == Width(ts) && s[..|ts[0]|] == ts[0]
  {
    if ts == [] then ""
    else if |ts| == 1 then ts[0]
    else ts[0] + " " + JoinWords(ts[1..])
  }

  /** The length of the leading run of non-separators. */
  function RunLength(s: string): (n: nat)
    ensures n <= |s|
    ensures forall i | 0 <= i < n :: !IsKeywordSep(s[i])
    ensures n < |s| ==> IsKeywordSep(s[n])
  {
    if s == [] || IsKeywordSep(s[0]) then 0 else 1 + RunLength(s[1..])
  }

  /** The keyword field's tokens: the maximal runs of non-separators. */
  function SplitKeywords(s: string): (ts: seq<string>)
    ensures forall t | t in ts :: IsKeyword(t)
    decreases |s|
  {
    if s == [] then []
    else if IsKeywordSep(s[0]) then SplitKeywords(s[1..])
    else
      var n := RunLength(s);
      [s[..n]] + SplitKeywords(s[n..])
  }

  lemma RunLengthOfWord(t: string, tail: string)
    requires IsKeyword(t)
    requires tail == [] || IsKeywordSep(tail[0])
    ensures RunLength(t + tail) == |t|
  {
    var s := t + tail;
    assert forall i | 0 <= i < |t| :: s[i] == t[i];
    assert |t| < |s| ==> s[|t|] == tail[0];
  }

  /** Splitting the joined string gives back the words, in order, when every
      word is non-empty and free of separators. */
  lemma {:induction false} SplitJoin(ts: seq<string>)
    requires forall t | t in ts :: IsKeyword(t)
    ensures SplitKeywords(JoinWords(ts)) == ts
  {
    if ts == [] {
    } else if |ts| == 1 {
      RunLengthOfWord(ts[0], []);
      assert ts[0] + [] == ts[0];
      assert ts[0][|ts[0]|..] == [];
    } else {
      var rest := JoinWords(ts[1..]);
      var s := ts[0] + " " + rest;
      RunLengthOfWord(ts[0], " " + rest);
      assert ts[0] + (" " + rest) == s;
      assert s[..|ts[0]|] == ts[0];
      assert s[|ts[0]|..] == " " + rest;
      assert (" " + rest)[1..] == rest;
      SplitJoin(ts[1..]);
      assert ts == [ts[0]] + ts[1..];
    }
  }

  predicate NoDuplicates(ts: seq<string>) {
    forall a, b | 0 <= a < b < |ts| :: ts[a] != ts[b]
  }

  /** The elements of `ts`, each once, in order of first occurrence. */
  function Dedup(ts: seq<string>): (r: seq<string>)
    ensures NoDuplicates(r)
    ensures forall t :: t in r <==> t in ts
  {
    if ts == [] then []
    else
      var r := Dedup(ts[..|ts| - 1]);
      var last := ts[|ts| - 1];
      assert ts == ts[..|ts| - 1] + [last];
      if last in r then r else r + [last]
  }

  /** The set of terms the `tags` field holds for a tag string. */
  function KeywordTerms(tagString: string): set<string> {
    set t | t in SplitKeywords(tagString) :: Lower(t)
  }

  /** Writing a list of lowercase tags as one space-joined string loses
      nothing: the field's terms are exactly the distinct tags. */
  lemma KeywordFieldKeepsTags(tags: seq<string>)
    requires forall t | t in tags :: IsWord(t) && IsLowercase(t)
    ensures KeywordTerms(JoinWords(Dedup(tags))) == set t | t in tags
  {
    var ds := Dedup(tags);
    forall t | t in ds
      ensures IsKeyword(t) && Lower(t) == t
    {
      assert IsWord(t) && IsLowercase(t);
      forall i | 0 <= i < |t|
        ensures !IsKeywordSep(t[i])
      {
        assert IsWordChar(t[i]);
      }
    }
    SplitJoin(ds);
  }
}

=== FILE: notes.dfy ===
/** The `Note` value as the index sees it: a title, the file name derived from
    it, and the title rules its constructor enforces. Reading, writing,
    renaming and locating the file on disk are left to the note store. */
module Notes {
  import opened Results
  import opened Text

  const MarkdownExt: string := ".md"

  /** The nine characters a title may not contain. */
  const InvalidTitleChars: string := "<>:\"/\\|?*"

  datatype NoteError = InvalidTitle

  datatype Note = Note(title: string) {
    /** The note's file name: its title followed by the Markdown extension. */
    function Filename(): (fn: string)
      ensures |fn| == |title| + |MarkdownExt|
      ensures fn[..|title|] == title
      ensures EndsWith(fn, MarkdownExt)
    {
      title + MarkdownExt
    }
  }

  /** True when some character of `chars` occurs in `title`, checking the
      characters one at a time as the generator in `_is_valid_title` does. */
  function AnyOccurs(chars: string, title: string): (found: bool)
    ensures found <==> exists k | 0 <= k < |chars| :: chars[k] in title
  {
    if chars == [] then false
    else chars[0] in title || AnyOccurs(chars[1..], title)
  }

  /** A title is valid exactly when none of its characters is one of the
      nine forbidden ones. */
  function IsValidTitle(title: string): (ok: bool)
    ensures ok <==> forall i | 0 <= i < |title| :: title[i] !in InvalidTitleChars
  {
    !AnyOccurs(InvalidTitleChars, title)
  }

  /** The `Note` constructor for an existing note (`new=False`): the title is
      stripped, then validated. */
  function MakeNote(title: string): (r: Result<Note, NoteError>)
    ensures r.Ok? <==> IsValidTitle(Strip(title))
    ensures r.Err? ==> r.error == InvalidTitle
    ensures r.Ok? ==> r.value.title == Strip(title) && IsStripped(r.value.title)
  {
    var stripped := Strip(title);
    if !IsValidTitle(stripped) then Err(InvalidTitle)
    else Ok(Note(stripped))
  }

  /** The file name with its Markdown extension removed; names without it are
      returned unchanged. */
  function StripExt(fn: string): (stem: string)
    ensures EndsWith(fn, MarkdownExt) ==> stem + MarkdownExt == fn
    ensures !EndsWith(fn, MarkdownExt) ==> stem == fn
  {
    if EndsWith(fn, MarkdownExt) then fn[..|fn| - |MarkdownExt|] else fn
  }

  /** A file name that a `Note` maps back to unchanged: a stripped stem
      followed by the Markdown extension. */
  predicate IsNoteFilename(fn: string) {
    EndsWith(fn, MarkdownExt) && IsStripped(StripExt(fn))
  }

  /** Removing the extension from a note's file name gives back its title. */
  lemma FilenameRoundTrip(n: Note)
    ensures StripExt(n.Filename()) == n.title
  {
    assert EndsWith(n.Filename(), MarkdownExt);
  }

  /** Two notes share a file name only when they share a title. */
  lemma FilenameInjective(a: Note, b: Note)
    ensures a.Filename() == b.Filename() <==> a.title == b.title
  {
    if a.Filename() == b.Filename() {
      FilenameRoundTrip(a);
      FilenameRoundTrip(b);
    }
  }

  /** A valid title yields a file name without a path separator, so joining
      it onto the notes directory names a file directly in that directory. */
  lemma ValidFilenameHasNoSeparator(n: Note)
    requires IsValidTitle(n.title)
    ensures '/' !in n.Filename() && '\\' !in n.Filename()
  {
    var fn := n.Filename();
    forall i | 0 <= i < |fn|
      ensures fn[i] != '/' && fn[i] != '\\'
    {
      if i < |n.title| {
        assert fn[i] == n.title[i];
        assert n.title[i] !in InvalidTitleChars;
      } else {
        assert fn[i] == MarkdownExt[i - |n.title|];
      }
    }
  }

  /** Building the note that a stored file name names: when the name is a note
      file name with a valid title, the constructor succeeds and the note's
      file name is that name again. */
  lemma NoteOfFilename(fn: string)
    requires IsNoteFilename(fn)
    ensures MakeNote(StripExt(fn)).Ok? <==> IsValidTitle(StripExt(fn))
    ensures MakeNote(StripExt(fn)).Ok? ==>
              MakeNote(StripExt(fn)).value == Note(StripExt(fn))
    ensures MakeNote(StripExt(fn)).Ok? ==>
              MakeNote(StripExt(fn)).value.Filename() == fn
  {
    StripStripped(StripExt(fn));
  }
}

=== FILE: results.dfy ===
/** Optional values and error-carrying results, used wherever the system
    returns None or raises an exception. */
module Results {

  datatype Option<+T> = None | Some(value: T)

  datatype Result<+T, +E> = Ok(value: T) | Err(error: E) {
    predicate IsFailure() {
      Err?
    }

    function PropagateFailure<U>(): Result<U, E>
      requires Err?
    {
      Err(error)
    }

    function Extract(): T
      requires Ok?
    {
      value
    }
  }
}

=== FILE: search.dfy ===
/** Query construction and sort selection in `Flatnotes.search`. The query
    parser, the scorer and the searcher belong to the search library; the
    model keeps what the source decides before handing over to it. */
module Search {
  import opened Results
  import opened Text
  import SearchTerm
  import Sync
  import Notes

  /** The stored fields a search can be sorted by. */
  datatype SortField = ByTitle | ByLastModified

  /** `Every()` for the match-all term, otherwise the parsed term over the
      three searched fields. */
  datatype Query = Every | Parsed(text: string, fields: seq<string>)

  const SearchedFields: seq<string> := ["title", "content", "tags"]

  /** What `search` passes to the searcher. */
  datatype SearchPlan = SearchPlan(query: Query, sortedBy: Option<SortField>, reverse: bool, limit: Option<int>)

  /** `sort` is kept when it names a sortable field and becomes `None`
      (score order) otherwise. */
  function SortKey(sort: string): (key: Option<SortField>)
    ensures key == Some(ByTitle) <==> sort == "title"
    ensures key == Some(ByLastModified) <==> sort == "last_modified"
    ensures key == None <==> sort != "title" && sort != "last_modified"
  {
    if sort == "title" then Some(ByTitle)
    else if sort == "last_modified" then Some(ByLastModified)
    else None
  }

  /** The `reverse` flag: "desc" for a field sort, and its negation for score
      order, where the searcher reads the flag the other way round. */
  function ReverseFlag(key: Option<SortField>, order: string): (reverse: bool)
    ensures key.Some? ==> (reverse <==> order == "desc")
    ensures key.None? ==> (reverse <==> order != "desc")
  {
    var reverse := order == "desc";
    if key.None? then !reverse else reverse
  }

  /** The match-all term bypasses the parser; anything else is parsed over
      title, content and tags. */
  function BuildQuery(term: string): (q: Query)
    ensures q == Every <==> term == "*"
    ensures q.Parsed? ==> q.text == term && q.fields == SearchedFields
  {
    if term == "*" then Every else Parsed(term, SearchedFields)
  }

  /** The searcher's arguments for a search: the query, the sort field, the
      `reverse` flag and the limit as given. */
  function PlanSearch(term: string, sort: string, order: string, limit: Option<int>): (plan: SearchPlan)
    ensures plan.query == Every <==> Strip(term) == "*"
    ensures plan.query.Parsed? ==> plan.query.text == SearchTerm.PreProcess(term) && plan.query.fields == SearchedFields
    ensures plan.sortedBy.Some? <==> sort == "title" || sort == "last_modified"
    ensures sort == "title" ==> plan.sortedBy == Some(ByTitle)
    ensures sort == "last_modified" ==> plan.sortedBy == Some(ByLastModified)
    ensures HighestFirst(plan) <==> order == "desc"
    ensures plan.limit == limit
  {
    MatchAllIffStar(term);
    var key := SortKey(sort);
    SearchPlan(BuildQuery(SearchTerm.PreProcess(term)), key, ReverseFlag(key, order), limit)
  }

  /** How the searcher orders hits for a plan: a field sort lists the largest
      values first when `reverse` is set, while score order lists the highest
      scores first when it is not. */
  predicate HighestFirst(plan: SearchPlan) {
    if plan.sortedBy.Some? then plan.reverse else !plan.reverse
  }

  /** A term selects every entry exactly when it is `*` once stripped: the
      hashtag rewrite can neither produce nor destroy a lone `*`. */
  lemma MatchAllIffStar(term: string)
    ensures SearchTerm.PreProcess(term) == "*" <==> Strip(term) == "*"
  {
  }

  /** The file names a plan selects from the index: all of them for the
      match-all query, otherwise those the parsed query matches, where
      `matches` stands for the search library's parser and matcher. */
  function Selected(plan: SearchPlan, index: Sync.Index, matches: (string, Sync.Index) -> set<string>): (keys: set<string>)
    ensures plan.query == Every ==> keys == index.Keys
    ensures keys <= index.Keys
  {
    match plan.query
    case Every => index.Keys
    case Parsed(text, _) => matches(text, index) * index.Keys
  }

  /** `search`: the index is reconciled first, then the plan is run against
      the reconciled index. */
  method RunSearch(index: Sync.Index, store: Sync.NoteStore, term: string, sort: string, order: string,
                   limit: Option<int>, matches: (string, Sync.Index) -> set<string>)
    returns (r: Result<(Sync.Index, SearchPlan, set<string>), Notes.NoteError>)
    requires Sync.WellFormedStore(store)
    ensures r.Err? <==> !Sync.AllTitlesValid(store)
    ensures r.Ok? ==> r.value.0 == Sync.Reconciled(index, store)
    ensures r.Ok? ==> r.value.1 == PlanSearch(term, sort, order, limit)
    ensures r.Ok? ==> r.value.2 <= store.Keys
    ensures r.Ok? && Strip(term) == "*" ==> r.value.2 == store.Keys
  {
    var synced :- Sync.UpdateIndex(index, store);
    var plan := PlanSearch(term, sort, order, limit);
    MatchAllIffStar(term);
    return Ok((synced.index, plan, Selected(plan, synced.index, matches)));
  }
}

=== FILE: search_result.dfy ===
/** Building a `SearchResult` from one hit: which fields matched, the score
    if it is one, the highlights, and the tag terms that matched. The
    highlighter is a function supplied by the caller. */
module SearchResults {
  import opened Results
  import opened Text
  import opened Notes
  import Tags

  /** One `(field, term)` pair of `Hit.matched_terms()`. */
  datatype MatchedTerm = MatchedTerm(field: string, term: string)

  /** `hit.score`: a float under score order; under a field sort the searcher
      puts that field's value there instead. */
  datatype HitScore = FloatScore(value: real) | FieldValue

  datatype Hit = Hit(filename: string, score: HitScore, matchedTerms: seq<MatchedTerm>)

  datatype SearchResult = SearchResult(
    note: Note,
    score: Option<real>,
    titleHighlights: Option<string>,
    contentHighlights: Option<string>,
    tagMatches: Option<seq<string>>)

  /** `_get_matched_fields`: the set of field names among the pairs. */
  function MatchedFields(terms: seq<MatchedTerm>): (fields: set<string>)
    ensures forall f :: f in fields <==> exists k | 0 <= k < |terms| :: terms[k].field == f
  {
    set k | 0 <= k < |terms| :: terms[k].field
  }

  /** The terms of the pairs whose field is "tags", in order. */
  function TagTerms(terms: seq<MatchedTerm>): (tags: seq<string>)
    ensures |tags| <= |terms|
  {
    if terms == [] then []
    else if terms[0].field == "tags" then [terms[0].term] + TagTerms(terms[1..])
    else TagTerms(terms[1..])
  }

  /** A single pair contributes its term exactly when its field is "tags". */
  lemma TagTermsSingle(m: MatchedTerm)
    ensures TagTerms([m]) == (if m.field == "tags" then [m.term] else [])
  {
  }

  /** The tag terms of two runs of pairs are those of the first run followed
      by those of the second: the list comprehension keeps order and
      repeats. */
  lemma {:induction false} TagTermsAppend(a: seq<MatchedTerm>, b: seq<MatchedTerm>)
    ensures TagTerms(a + b) == TagTerms(a) + TagTerms(b)
  {
    if a != [] {
      assert (a + b)[0] == a[0];
      assert (a + b)[1..] == a[1..] + b;
      TagTermsAppend(a[1..], b);
    } else {
      assert a + b == b;
    }
  }

  /** A string is among the tag terms exactly when some pair has field
      "tags" and that term. */
  lemma {:induction false} TagTermsExact(terms: seq<MatchedTerm>, t: string)
    ensures t in TagTerms(terms) <==> exists k | 0 <= k < |terms| :: terms[k] == MatchedTerm("tags", t)
  {
    if terms != [] {
      TagTermsExact(terms[1..], t);
      if exists k | 0 <= k < |terms[1..]| :: terms[1..][k] == MatchedTerm("tags", t) {
        var k :| 0 <= k < |terms[1..]| && terms[1..][k] == MatchedTerm("tags", t);
        assert terms[k + 1] == MatchedTerm("tags", t);
      }
      if exists k | 0 <= k < |terms| :: terms[k] == MatchedTerm("tags", t) {
        var k :| 0 <= k < |terms| && terms[k] == MatchedTerm("tags", t);
        if k > 0 {
          assert terms[1..][k - 1] == MatchedTerm("tags", t);
        }
      }
    }
  }

  /** The field is "tags" for every pair the tag terms come from, so the
      list is empty exactly when no tag term matched. */
  lemma {:induction false} TagTermsEmpty(terms: seq<MatchedTerm>)
    ensures TagTerms(terms) == [] <==> "tags" !in MatchedFields(terms)
  {
    if terms != [] {
      TagTermsEmpty(terms[1..]);
      assert MatchedFields(terms) == {terms[0].field} + MatchedFields(terms[1..]) by {
        forall f
          ensures f in MatchedFields(terms) <==> f == terms[0].field || f in MatchedFields(terms[1..])
        {
          if f in MatchedFields(terms) && f != terms[0].field {
            var k :| 0 <= k < |terms| && terms[k].field == f;
            assert terms[1..][k - 1].field == f;
          }
          if f in MatchedFields(terms[1..]) {
            var k :| 0 <= k < |terms[1..]| && terms[1..][k].field == f;
            assert terms[k + 1].field == f;
          }
        }
      }
    }
  }

  /** `SearchResult.__init__`. The note is rebuilt from the hit's file name,
      which fails like any `Note` whose title is invalid. `content` is the
      note's current content and `highlight(field, text)` stands for
      `hit.highlights`; the content highlight is computed on the content
      without its tags. */
  function MakeResult(hit: Hit, content: string, highlight: (string, string) -> string): (r: Result<SearchResult, NoteError>)
    ensures r.Err? <==> !IsValidTitle(Strip(StripExt(hit.filename)))
    ensures r.Ok? ==> r.value.note.title == Strip(StripExt(hit.filename))
    ensures r.Ok? ==> (r.value.score.Some? <==> hit.score.FloatScore?)
    ensures r.Ok? && hit.score.FloatScore? ==> r.value.score == Some(hit.score.value)
    ensures r.Ok? ==> (r.value.titleHighlights.Some? <==> "title" in MatchedFields(hit.matchedTerms))
    ensures r.Ok? && r.value.titleHighlights.Some? ==>
              r.value.titleHighlights.value == highlight("title", r.value.note.title)
    ensures r.Ok? ==> (r.value.contentHighlights.Some? <==> "content" in MatchedFields(hit.matchedTerms))
    ensures r.Ok? && r.value.contentHighlights.Some? ==>
              r.value.contentHighlights.value == highlight("content", Tags.ExtractTags(content).0)
    ensures r.Ok? ==> (r.value.tagMatches.Some? <==> "tags" in MatchedFields(hit.matchedTerms))
    ensures r.Ok? && r.value.tagMatches.Some? ==> r.value.tagMatches.value != []
    ensures r.Ok? && r.value.tagMatches.Some? ==> r.value.tagMatches.value == TagTerms(hit.matchedTerms)
    ensures r.Ok? && r.value.tagMatches.Some? ==>
              forall t :: t in r.value.tagMatches.value <==>
                exists k | 0 <= k < |hit.matchedTerms| :: hit.matchedTerms[k] == MatchedTerm("tags", t)
  {
    var note :- MakeNote(StripExt(hit.filename));
    var fields := MatchedFields(hit.matchedTerms);
    var score := if hit.score.FloatScore? then Some(hit.score.value) else None;
    var titleHighlights := if "title" in fields then Some(highlight("title", note.title)) else None;
    var contentHighlights :=
      if "content" in fields then Some(highlight("content", Tags.ExtractTags(content).0)) else None;
    var tagMatches := if "tags" in fields then Some(TagTerms(hit.matchedTerms)) else None;
    TagTermsExactAll(hit.matchedTerms);
    TagTermsEmpty(hit.matchedTerms);
    Ok(SearchResult(note, score, titleHighlights, contentHighlights, tagMatches))
  }

  lemma TagTermsExactAll(terms: seq<MatchedTerm>)
    ensures forall t :: t in TagTerms(terms) <==> exists k | 0 <= k < |terms| :: terms[k] == MatchedTerm("tags", t)
  {
    forall t
      ensures t in TagTerms(terms) <==> exists k | 0 <= k < |terms| :: terms[k] == MatchedTerm("tags", t)
    {
      TagTermsExact(terms, t);
    }
  }
}

=== FILE: search_term.dfy ===
/** Search-term preprocessing (`Flatnotes.pre_process_search_term` and
    `TAGS_WITH_HASH_RE`): the term is stripped, then every hashtag standing
    on its own becomes a `tags:` field filter. */
module SearchTerm {
  import opened Text
  import Tags

  const TagsPrefix: string := "tags:"

  /** `TAGS_WITH_HASH_RE` matches `s[i..j]`: a `#` at the start of the term
      or after whitespace, then a run of word characters that ends at
      whitespace or at the end of the term. */
  predicate IsHashTagAt(s: string, i: int, j: int)
    ensures IsHashTagAt(s, i, j) <==> Tags.IsTagAt(s, i + 1, j)
  {
    && 0 <= i
    && i + 1 < j <= |s|
    && s[i] == '#'
    && (i == 0 || IsSpace(s[i - 1]))
    && (forall k | i + 1 <= k < j :: IsWordChar(s[k]))
    && (j == |s| || IsSpace(s[j]))
  }

  /** The checks of `TAGS_WITH_HASH_RE` other than the run of word
      characters, which the rewrite gets from `Tags.WordEnd`. */
  predicate HashTagBounds(s: string, i: int, j: int) {
    && 0 <= i
    && i + 1 < j <= |s|
    && s[i] == '#'
    && (i == 0 || IsSpace(s[i - 1]))
    && (j == |s| || IsSpace(s[j]))
  }

  predicate HasHashTag(s: string) {
    exists i, j | 0 <= i < j <= |s| :: IsHashTagAt(s, i, j)
  }

  /** Where the substitution carries on after position `k`: past the match
      that starts there, or at `k + 1` when none does. */
  function StepEnd(s: string, k: nat, e: nat): (n: nat)
    requires k < e <= |s|
    ensures k < n <= e
  {
    var j := Tags.WordEnd(s, k + 1);
    if j <= e && HashTagBounds(s, k, j) then j else k + 1
  }

  /** What the substitution emits for the positions from `k` up to
      `StepEnd(s, k, e)`: `tags:name` for a match `#name`, otherwise the
      character itself. */
  function StepOut(s: string, k: nat, e: nat): string
    requires k < e <= |s|
  {
    var n := StepEnd(s, k, e);
    if n == k + 1 then [s[k]] else TagsPrefix + s[k + 1..n]
  }

  /** `re.sub` of the pattern over positions `k` to `e` of `s`, each match
      `#name` replaced by `tags:name`. The pattern's look-behind and
      look-ahead see the whole of `s`. */
  function RewriteRange(s: string, k: nat, e: nat): string
    requires k <= e <= |s|
    decreases e - k
  {
    if k == e then [] else StepOut(s, k, e) + RewriteRange(s, StepEnd(s, k, e), e)
  }

  function Rewrite(s: string): (r: string)
    ensures |r| >= |s|
    ensures !HasHashTag(s) ==> r == s
  {
    RewriteLength(s, 0, |s|);
    RewriteCopiesRange(s, 0, |s|);
    RewriteRange(s, 0, |s|)
  }

  /** `pre_process_search_term`: the result has no surrounding whitespace, and
      a term without any standalone hashtag is only stripped. */
  function PreProcess(term: string): (r: string)
    ensures IsStripped(r)
    ensures !HasHashTag(Strip(term)) ==> r == Strip(term)
    ensures |r| >= |Strip(term)|
  {
    var t := Strip(term);
    RewriteKeepsStripped(t);
    Rewrite(t)
  }

  /** A match's run of word characters is the longest one after its `#`. */
  lemma HashTagEnd(s: string, i: int, j: int)
    requires IsHashTagAt(s, i, j)
    ensures Tags.WordEnd(s, i + 1) == j
  {
    Tags.TagEndsAtWordEnd(s, i + 1, j);
  }

  /** A step past more than one character is a match of the pattern. */
  lemma StepIsMatch(s: string, k: nat, e: nat)
    requires k < e <= |s|
    ensures StepEnd(s, k, e) > k + 1 ==> IsHashTagAt(s, k, StepEnd(s, k, e))
  {
  }

  /** At a match the step goes past it and emits the filter. */
  lemma StepAtHashTag(s: string, i: nat, j: nat)
    requires IsHashTagAt(s, i, j)
    ensures StepEnd(s, i, |s|) == j
    ensures StepOut(s, i, |s|) == TagsPrefix + s[i + 1..j]
  {
    HashTagEnd(s, i, j);
  }

  /** What a step emits is never shorter than what it consumes, starts with
      the consumed first character or a `t`, and ends with the consumed last
      character. */
  lemma StepOutEnds(s: string, k: nat, e: nat)
    requires k < e <= |s|
    ensures |StepOut(s, k, e)| >= StepEnd(s, k, e) - k
    ensures StepOut(s, k, e)[0] == s[k] || StepOut(s, k, e)[0] == 't'
    ensures StepOut(s, k, e)[|StepOut(s, k, e)| - 1] == s[StepEnd(s, k, e) - 1]
  {
    var n := StepEnd(s, k, e);
    if n > k + 1 {
      AppendEnds(TagsPrefix, s[k + 1..n]);
    }
  }

  /** A match that starts before a position holding no word character ends
      at or before it. */
  lemma MatchBeforeBoundary(s: string, i: nat, m: nat)
    requires i < m <= |s|
    requires m == |s| || !IsWordChar(s[m])
    ensures Tags.WordEnd(s, i + 1) <= m
  {
  }

  /** A step that starts before a position holding no word character is the
      same whether the range ends there or further on. */
  lemma StepWithin(s: string, k: nat, m: nat, e: nat)
    requires k < m <= e <= |s|
    requires m == |s| || !IsWordChar(s[m])
    ensures StepEnd(s, k, e) == StepEnd(s, k, m)
    ensures StepOut(s, k, e) == StepOut(s, k, m)
  {
    MatchBeforeBoundary(s, k, m);
  }

  /** A rewrite only ever lengthens the text: each `#` becomes `tags:`. */
  lemma {:induction false} RewriteLength(s: string, k: nat, e: nat)
    requires k <= e <= |s|
    ensures |RewriteRange(s, k, e)| >= e - k
    decreases e - k
  {
    if k < e {
      StepOutEnds(s, k, e);
      RewriteLength(s, StepEnd(s, k, e), e);
    }
  }

  /** No match of the pattern lies inside `s[k..e]`. */
  predicate NoHashTagIn(s: string, k: int, e: int) {
    forall i, j | k <= i < j <= e :: !IsHashTagAt(s, i, j)
  }

  /** A range holding no match is copied unchanged: `re.sub` keeps every
      character outside its matches. */
  lemma {:induction false} RewriteCopiesRange(s: string, k: nat, e: nat)
    requires k <= e <= |s|
    ensures NoHashTagIn(s, k, e) ==> RewriteRange(s, k, e) == s[k..e]
    decreases e - k
  {
    if k < e && NoHashTagIn(s, k, e) {
      StepIsMatch(s, k, e);
      RewriteCopiesRange(s, k + 1, e);
      assert s[k..e] == [s[k]] + s[k + 1..e];
    }
  }

  /** The rewrite of a non-empty range begins with its first character or
      with the `t` of a `tags:` filter. */
  lemma RewriteFirst(s: string, k: nat, e: nat)
    requires k < e <= |s|
    ensures |RewriteRange(s, k, e)| > 0
    ensures RewriteRange(s, k, e)[0] == s[k] || RewriteRange(s, k, e)[0] == 't'
  {
    StepOutEnds(s, k, e);
    AppendEnds(StepOut(s, k, e), RewriteRange(s, StepEnd(s, k, e), e));
  }

  /** The rewrite of a non-empty range ends with its last character. */
  lemma {:induction false} RewriteLast(s: string, k: nat, e: nat)
    requires k < e <= |s|
    ensures |RewriteRange(s, k, e)| > 0
    ensures RewriteRange(s, k, e)[|RewriteRange(s, k, e)| - 1] == s[e - 1]
    decreases e - k
  {
    var n := StepEnd(s, k, e);
    StepOutEnds(s, k, e);
    AppendEnds(StepOut(s, k, e), RewriteRange(s, n, e));
    if n < e {
      RewriteLast(s, n, e);
    }
  }

  /** Rewriting a stripped text leaves it stripped: it starts with the
      original first character or a `t`, and ends with the original last
      character. */
  lemma RewriteKeepsStripped(s: string)
    requires IsStripped(s)
    ensures IsStripped(Rewrite(s))
  {
    if s != [] {
      RewriteFirst(s, 0, |s|);
      RewriteLast(s, 0, |s|);
    }
  }

  /** Rewriting splits at any position that no match can straddle, that is,
      one that does not hold a word character. */
  lemma {:induction false} RewriteSplit(s: string, k: nat, m: nat, e: nat)
    requires k <= m <= e <= |s|
    requires m == |s| || !IsWordChar(s[m])
    ensures RewriteRange(s, k, e) == RewriteRange(s, k, m) + RewriteRange(s, m, e)
    decreases m - k
  {
    if k < m {
      StepWithin(s, k, m, e);
      var n := StepEnd(s, k, m);
      RewriteSplit(s, n, m, e);
      AppendAssoc(StepOut(s, k, m), RewriteRange(s, n, m), RewriteRange(s, m, e));
    }
  }

  /** The first and the last character of a concatenation. */
  lemma AppendEnds(a: string, b: string)
    requires |a| > 0
    ensures (a + b)[0] == a[0]
    ensures (a + b)[|a + b| - 1] == if |b| > 0 then b[|b| - 1] else a[|a| - 1]
  {
  }

  lemma AppendAssoc(a: string, b: string, c: string)
    ensures a + (b + c) == (a + b) + c
  {
  }

  /** The rewrite of a text around one of its matches: the rewrite of the
      text before it, the filter, and the rewrite of the text after it. */
  lemma RewriteAroundHashTag(s: string, i: nat, j: nat)
    requires IsHashTagAt(s, i, j)
    ensures Rewrite(s) == RewriteRange(s, 0, i) + TagsPrefix + s[i + 1..j] + RewriteRange(s, j, |s|)
  {
    RewriteSplit(s, 0, i, |s|);
    StepAtHashTag(s, i, j);
    var before, name, after := RewriteRange(s, 0, i), s[i + 1..j], RewriteRange(s, j, |s|);
    AppendAssoc(before, TagsPrefix + name, after);
    AppendAssoc(before, TagsPrefix, name);
  }

  /** Every standalone hashtag `#name` of the stripped term turns into
      `tags:name` in place: the output is the rewrite of the text before it,
      the filter, and the rewrite of the text after it. */
  lemma HashTagBecomesFilter(term: string, i: nat, j: nat)
    requires IsHashTagAt(Strip(term), i, j)
    ensures PreProcess(term) ==
              RewriteRange(Strip(term), 0, i) + TagsPrefix + Strip(term)[i + 1..j]
              + RewriteRange(Strip(term), j, |Strip(term)|)
  {
    var s := Strip(term);
    assert PreProcess(term) == Rewrite(s);
    RewriteAroundHashTag(s, i, j);
  }

  /** A text with one match and no other: the match becomes `tags:name` and
      every other character is copied unchanged. */
  lemma RewriteOneHashTag(s: string, i: nat, j: nat)
    requires IsHashTagAt(s, i, j)
    requires NoHashTagIn(s, 0, i) && NoHashTagIn(s, j, |s|)
    ensures Rewrite(s) == s[..i] + TagsPrefix + s[i + 1..j] + s[j..]
  {
    RewriteAroundHashTag(s, i, j);
    RewriteCopiesRange(s, 0, i);
    RewriteCopiesRange(s, j, |s|);
  }

  /** The search term with one standalone hashtag: it is stripped, the
      hashtag becomes a `tags:` filter, and the rest of the stripped term is
      kept as it was. */
  lemma PreProcessOneHashTag(term: string, i: nat, j: nat)
    requires IsHashTagAt(Strip(term), i, j)
    requires NoHashTagIn(Strip(term), 0, i) && NoHashTagIn(Strip(term), j, |Strip(term)|)
    ensures PreProcess(term) == Strip(term)[..i] + TagsPrefix + Strip(term)[i + 1..j] + Strip(term)[j..]
  {
    var s := Strip(term);
    assert PreProcess(term) == Rewrite(s);
    RewriteOneHashTag(s, i, j);
  }

  /** A worked example: the surrounding blanks go, `#b` becomes `tags:b`, and
      the words around it are untouched. */
  lemma PreProcessExample()
    ensures PreProcess(" a #b c ") == "a tags:b c"
  {
    var t, s := " a #b c ", "a #b c";
    StripExample();
    ExampleMatches();
    PreProcessOneHashTag(t, 2, 4);
    assert s[..2] + TagsPrefix + s[3..4] + s[4..] == "a tags:b c";
  }

  lemma StripExample()
    ensures Strip(" a #b c ") == "a #b c"
  {
    var t := " a #b c ";
    assert SpaceEnd(t, 1) == 1;
    assert SpaceEnd(t, 0) == 1;
    assert SpaceStart(t, 1, 7) == 7;
    assert SpaceStart(t, 1, 8) == 7;
    assert t[1..7] == "a #b c";
  }

  lemma ExampleMatches()
    ensures IsHashTagAt("a #b c", 2, 4)
    ensures NoHashTagIn("a #b c", 0, 2) && NoHashTagIn("a #b c", 4, 6)
  {
  }


}

=== FILE: sync.dfy ===
/** Index reconciliation (`Flatnotes.update_index` with `clean=False`, and
    `_add_note_to_index`). The index maps each note file name (its unique
    `filename` key) to the document stored for it; the note store maps each
    note file name found by the recursive scan to the file's modification
    time, whether it sits directly in the notes directory, and its content. */
module Sync {
  import opened Results
  import opened Text
  import opened Notes
  import Tags
  import Keywords

  datatype NoteFile = NoteFile(mtime: int, atRoot: bool, content: string)

  type NoteStore = map<string, NoteFile>

  /** A stored document, kept as the modification time, the title and the
      note content it was built from; the analyzed `content` and `tags`
      fields are functions of that content. */
  datatype IndexEntry = IndexEntry(lastModified: int, title: string, source: string) {
    /** The `content` field: the note content without its tags. */
    function Content(): string {
      Tags.ExtractTags(source).0
    }

    /** The `tags` field: the terms the keyword field reads back from the
        space-joined tag string, which are exactly the extracted tags. */
    function TagTerms(): (terms: set<string>)
      ensures terms == Tags.ExtractTags(source).1
    {
      var tagList := Tags.TagList(source);
      Tags.TagListTags(source);
      Keywords.KeywordFieldKeepsTags(tagList);
      Tags.ExtractedSetOfList(source);
      Keywords.KeywordTerms(Keywords.JoinWords(Keywords.Dedup(tagList)))
    }
  }

  type Index = map<string, IndexEntry>

  /** What one reconciliation wrote: the resulting index, the keys it deleted,
      the existing entries it rewrote and the notes it added. */
  datatype SyncResult = SyncResult(index: Index, deleted: set<string>, updated: set<string>, added: set<string>)

  /** The existence check on an indexed file name joins it onto the notes
      directory itself, so only a file directly in that directory passes. */
  predicate ExistsAtRoot(store: NoteStore, fn: string) {
    fn in store && store[fn].atRoot
  }

  /** An indexed entry whose file passes the existence check but whose
      modification time differs from the stored one. */
  predicate IsStale(index: Index, store: NoteStore, fn: string)
    requires fn in index
  {
    ExistsAtRoot(store, fn) && store[fn].mtime != index[fn].lastModified
  }

  /** Every file the recursive scan finds is named `<title>.md` with a
      stripped title, so the note built from it has that file name again. */
  predicate WellFormedStore(store: NoteStore) {
    forall fn {:trigger IsNoteFilename(fn)} | fn in store :: IsNoteFilename(fn)
  }

  predicate AllTitlesValid(store: NoteStore) {
    forall fn | fn in store :: IsValidTitle(StripExt(fn))
  }

  /** The document `_add_note_to_index` writes for a note: the file's
      modification time, the note's title, and the fields built from the
      file's content. */
  function NoteEntry(note: Note, file: NoteFile): (e: IndexEntry)
    ensures e.lastModified == file.mtime && e.title == note.title
    ensures e.source == file.content
  {
    IndexEntry(file.mtime, note.title, file.content)
  }

  /** The written document's `content` field is the file's content without
      its tags, and its `tags` field holds exactly the extracted tags. */
  lemma NoteEntryFields(note: Note, file: NoteFile)
    ensures NoteEntry(note, file).Content() == Tags.ExtractTags(file.content).0
    ensures NoteEntry(note, file).TagTerms() == Tags.ExtractTags(file.content).1
  {
  }

  function FileEntry(store: NoteStore, fn: string): IndexEntry
    requires fn in store
  {
    NoteEntry(Note(StripExt(fn)), store[fn])
  }

  /** The index a successful reconciliation leaves: one entry per scanned
      file; an entry that passed the existence check with an unchanged time
      is kept as it was, every other one is the file's fresh document. Either
      way each entry's time is its file's time. */
  function Reconciled(index: Index, store: NoteStore): (r: Index)
    ensures r.Keys == store.Keys
    ensures forall fn | fn in r :: r[fn].lastModified == store[fn].mtime
  {
    map fn | fn in store ::
      if fn in index && ExistsAtRoot(store, fn) && !IsStale(index, store, fn)
      then index[fn]
      else FileEntry(store, fn)
  }

  /** The keys the first pass deletes: those whose file is not directly in
      the notes directory, including notes that live in a subdirectory. */
  function DeletedKeys(index: Index, store: NoteStore): set<string> {
    set fn | fn in index && !ExistsAtRoot(store, fn)
  }

  /** The entries the first pass rewrites. */
  function UpdatedKeys(index: Index, store: NoteStore): set<string> {
    set fn | fn in index && IsStale(index, store, fn)
  }

  /** The notes the second pass writes: every scanned file the first pass
      did not mark seen. */
  function AddedKeys(index: Index, store: NoteStore): set<string> {
    set fn | fn in store && !(fn in index && ExistsAtRoot(store, fn))
  }

  /** The state after the first pass of `update_index`: the index as the
      writer has changed it so far, and the keys it marked seen, deleted and
      rewrote. */
  datatype Visit = Visit(next: Index, seen: set<string>, deleted: set<string>, updated: set<string>)

  /** The first pass of `update_index`: every indexed entry is visited; its
      key is deleted when the file is not directly in the notes directory,
      its document is rewritten when the modification time changed, and
      otherwise it is left alone; the last two mark the key as seen. */
  method VisitIndexed(index: Index, store: NoteStore) returns (r: Result<Visit, NoteError>)
    requires WellFormedStore(store)
    ensures r.Err? ==> !AllTitlesValid(store) && r.error == InvalidTitle
    ensures AllTitlesValid(store) ==> r.Ok?
    ensures r.Ok? ==> r.value.seen == set fn | fn in index && ExistsAtRoot(store, fn)
    ensures r.Ok? ==> r.value.deleted == set fn | fn in index && !ExistsAtRoot(store, fn)
    ensures r.Ok? ==> r.value.updated == set fn | fn in index && IsStale(index, store, fn)
    ensures r.Ok? ==> r.value.next.Keys == index.Keys - r.value.deleted
    ensures r.Ok? ==> forall fn | fn in r.value.next ::
                        r.value.next[fn] == if fn in r.value.updated then FileEntry(store, fn) else index[fn]
  {
    var pending := index.Keys;
    var next := index;
    var seen: set<string> := {};
    var deleted: set<string> := {};
    var updated: set<string> := {};
    while pending != {}
      invariant pending <= index.Keys
      invariant seen == set fn | fn in index && fn !in pending && ExistsAtRoot(store, fn)
      invariant deleted == set fn | fn in index && fn !in pending && !ExistsAtRoot(store, fn)
      invariant updated == set fn | fn in index && fn !in pending && IsStale(index, store, fn)
      invariant next.Keys == index.Keys - deleted
      invariant forall fn | fn in next ::
                  next[fn] == if fn in updated then FileEntry(store, fn) else index[fn]
      decreases pending
    {
      var fn :| fn in pending;
      pending := pending - {fn};
      if !ExistsAtRoot(store, fn) {
        next := map k | k in next && k != fn :: next[k];
        deleted := deleted + {fn};
      } else if store[fn].mtime != index[fn].lastModified {
        var entry := Reindex(store, fn);
        if entry.Err? {
          return Err(entry.error);
        }
        next := next[fn := entry.value];
        updated := updated + {fn};
        seen := seen + {fn};
      } else {
        seen := seen + {fn};
      }
    }
    return Ok(Visit(next, seen, deleted, updated));
  }

  /** Rebuilding the document of one scanned file: the note is constructed
      from the file name, which fails on an invalid title, and its document
      is the one `_add_note_to_index` writes. */
  method Reindex(store: NoteStore, fn: string) returns (r: Result<IndexEntry, NoteError>)
    requires WellFormedStore(store) && fn in store
    ensures r.Ok? <==> IsValidTitle(StripExt(fn))
    ensures r.Err? ==> r.error == InvalidTitle
    ensures r.Ok? ==> r.value == FileEntry(store, fn)
  {
    assert IsNoteFilename(fn);
    NoteOfFilename(fn);
    var note := MakeNote(StripExt(fn));
    if note.Err? {
      return Err(note.error);
    }
    return Ok(NoteEntry(note.value, store[fn]));
  }

  /** `_get_notes`: a note for every scanned file, in the order the scan
      returns them; the first title the constructor rejects raises. */
  method BuildNotes(store: NoteStore) returns (r: Result<map<string, Note>, NoteError>)
    requires WellFormedStore(store)
    ensures r.Ok? <==> AllTitlesValid(store)
    ensures r.Err? ==> r.error == InvalidTitle
    ensures r.Ok? ==> r.value.Keys == store.Keys
    ensures r.Ok? ==> forall fn | fn in r.value :: r.value[fn] == Note(StripExt(fn))
  {
    var unbuilt := store.Keys;
    var notes: map<string, Note> := map[];
    while unbuilt != {}
      invariant unbuilt <= store.Keys
      invariant notes.Keys == store.Keys - unbuilt
      invariant forall fn | fn in notes :: notes[fn] == Note(StripExt(fn)) && IsValidTitle(StripExt(fn))
      decreases unbuilt
    {
      var fn :| fn in unbuilt;
      unbuilt := unbuilt - {fn};
      var note := MakeNote(StripExt(fn));
      assert (note.Ok? <==> IsValidTitle(StripExt(fn))) && (note.Ok? ==> note.value == Note(StripExt(fn))) by {
        assert IsNoteFilename(fn);
        NoteOfFilename(fn);
      }
      if note.Err? {
        return Err(note.error);
      }
      notes := notes[fn := note.value];
    }
    return Ok(notes);
  }

  /** The second pass of `update_index`: every note whose file name was not
      seen is written with `update_document`. Such a key has no committed
      document left (it was never indexed or the first pass deleted it), and
      the store holds one file per name, so each key is written once. */
  method AddUnseen(next: Index, seen: set<string>, notes: map<string, Note>, store: NoteStore)
    returns (result: Index, added: set<string>)
    requires WellFormedStore(store)
    requires notes.Keys == store.Keys
    requires forall fn | fn in notes :: notes[fn] == Note(StripExt(fn))
    ensures added == set fn | fn in store && fn !in seen
    ensures result.Keys == next.Keys + added
    ensures forall fn | fn in result ::
              result[fn] == if fn in added then FileEntry(store, fn) else next[fn]
  {
    var unvisited := store.Keys;
    result := next;
    added := {};
    while unvisited != {}
      invariant unvisited <= store.Keys
      invariant forall g :: g in added <==> g in store && g !in unvisited && g !in seen
      invariant result.Keys == next.Keys + added
      invariant forall fn | fn in result ::
                  result[fn] == if fn in added then FileEntry(store, fn) else next[fn]
      decreases unvisited
    {
      var fn :| fn in unvisited;
      unvisited := unvisited - {fn};
      var note := notes[fn];
      assert note.Filename() == fn by {
        assert IsNoteFilename(fn);
        FilenameRoundTrip(note);
      }
      if note.Filename() !in seen {
        result := result[note.Filename() := NoteEntry(note, store[fn])];
        added := added + {fn};
      }
    }
    assert added == set fn | fn in store && fn !in seen;
  }

  /** The two passes together leave exactly the reconciled index. */
  lemma PassesReconcile(index: Index, store: NoteStore, visit: Visit, next: Index, added: set<string>)
    requires visit.seen == set fn | fn in index && ExistsAtRoot(store, fn)
    requires visit.updated == set fn | fn in index && IsStale(index, store, fn)
    requires visit.next.Keys == index.Keys - set fn | fn in index && !ExistsAtRoot(store, fn)
    requires forall fn | fn in visit.next ::
               visit.next[fn] == if fn in visit.updated then FileEntry(store, fn) else index[fn]
    requires added == set fn | fn in store && fn !in visit.seen
    requires next.Keys == visit.next.Keys + added
    requires forall fn | fn in next ::
               next[fn] == if fn in added then FileEntry(store, fn) else visit.next[fn]
    ensures next == Reconciled(index, store)
  {
    var expected := Reconciled(index, store);
    assert next.Keys == expected.Keys;
    forall fn | fn in next
      ensures next[fn] == expected[fn]
    {
      if fn in index && ExistsAtRoot(store, fn) && !IsStale(index, store, fn) {
        assert fn !in added && fn !in visit.updated && fn in visit.next;
      }
    }
  }

  /** `update_index(clean=False)`: the first pass over the indexed entries,
      then a note for every scanned file, then the second pass adding the
      unseen ones, all committed together. A title the constructor rejects
      aborts the run before the commit, leaving the index as it was. */
  method UpdateIndex(index: Index, store: NoteStore) returns (r: Result<SyncResult, NoteError>)
    requires WellFormedStore(store)
    ensures r.Err? <==> !AllTitlesValid(store)
    ensures r.Err? ==> r.error == InvalidTitle
    ensures r.Ok? ==> r.value.index == Reconciled(index, store)
    ensures r.Ok? ==> r.value.deleted == DeletedKeys(index, store)
    ensures r.Ok? ==> r.value.updated == UpdatedKeys(index, store)
    ensures r.Ok? ==> r.value.added == AddedKeys(index, store)
  {
    var visit :- VisitIndexed(index, store);
    var notes :- BuildNotes(store);
    var next, added := AddUnseen(visit.next, visit.seen, notes, store);
    PassesReconcile(index, store, visit, next, added);
    return Ok(SyncResult(next, visit.deleted, visit.updated, added));
  }

  /** An entry whose file is directly in the notes directory and unchanged
      is left exactly as it was. */
  lemma UnchangedEntryKept(index: Index, store: NoteStore, fn: string)
    requires fn in index && ExistsAtRoot(store, fn) && !IsStale(index, store, fn)
    ensures fn in Reconciled(index, store) && Reconciled(index, store)[fn] == index[fn]
  {
  }

  /** A stale entry is rewritten from its file: the new time, and the tags
      extracted from the file's current content. */
  lemma StaleEntryRefreshed(index: Index, store: NoteStore, fn: string)
    requires fn in index && IsStale(index, store, fn)
    ensures fn in Reconciled(index, store)
    ensures Reconciled(index, store)[fn].lastModified == store[fn].mtime
    ensures Reconciled(index, store)[fn].TagTerms() == Tags.ExtractTags(store[fn].content).1
  {
  }

  /** After reconciliation the index holds exactly one entry per note file. */
  lemma EntryCountMatchesFiles(index: Index, store: NoteStore)
    ensures |Reconciled(index, store)| == |store|
  {
    var r := Reconciled(index, store);
    assert r.Keys == store.Keys;
    assert |r| == |r.Keys|;
    assert |store| == |store.Keys|;
  }

  /** Reconciling an already reconciled index changes nothing. */
  lemma ReconcileIdempotent(index: Index, store: NoteStore)
    ensures Reconciled(Reconciled(index, store), store) == Reconciled(index, store)
  {
    var once := Reconciled(index, store);
    var twice := Reconciled(once, store);
    forall fn | fn in store
      ensures twice[fn] == once[fn]
    {
      assert !IsStale(once, store, fn);
    }
  }

  /** A second reconciliation against the same files rewrites no entry in
      place, but it still deletes and re-adds every note kept in a
      subdirectory, because the existence check only looks in the notes
      directory itself while the scan is recursive. */
  lemma SecondSyncRewritesNestedNotes(index: Index, store: NoteStore)
    ensures UpdatedKeys(Reconciled(index, store), store) == {}
    ensures DeletedKeys(Reconciled(index, store), store) == set fn | fn in store && !store[fn].atRoot
    ensures AddedKeys(Reconciled(index, store), store) == set fn | fn in store && !store[fn].atRoot
  {
    var once := Reconciled(index, store);
    assert forall fn | fn in once :: !IsStale(once, store, fn);
  }
}

=== FILE: tags.dfy ===
/** Hashtag extraction from note content (`Flatnotes.TAGS_RE` and
    `Flatnotes.extract_tags`). */
module Tags {
  import opened Text

  /** `TAGS_RE` matches `s[i..j]`: a run of word characters right after a
      `#` that starts the content or follows whitespace, ending at whitespace
      or at the end of the content. The `#` itself is outside the match. */
  predicate IsTagAt(s: string, i: int, j: int)
    ensures IsTagAt(s, i, j) ==> 1 <= i < j <= |s| && !IsWordChar(s[i - 1]) && (j == |s| || !IsWordChar(s[j]))
  {
    && 1 <= i < j <= |s|
    && s[i - 1] == '#'
    && (i == 1 || IsSpace(s[i - 2]))
    && (forall k | i <= k < j :: IsWordChar(s[k]))
    && (j == |s| || IsSpace(s[j]))
  }

  /** The end of the longest run of word characters starting at `i`. */
  function WordEnd(s: string, i: nat): (j: nat)
    requires i <= |s|
    ensures i <= j <= |s|
    ensures forall k | i <= k < j :: IsWordChar(s[k])
    ensures j == |s| || !IsWordChar(s[j])
    decreases |s| - i
  {
    if i == |s| || !IsWordChar(s[i]) then i else WordEnd(s, i + 1)
  }

  /** A match can only end where its run of word characters ends. */
  lemma TagEndsAtWordEnd(s: string, i: int, j: int)
    requires IsTagAt(s, i, j)
    ensures WordEnd(s, i) == j
  {
  }

  /** One match of the pattern: its position and the matched text. */
  datatype Match = Match(start: nat, end: nat, text: string)

  /** What `re_extract` returns: the content with the matched spans removed,
      and the matches in order. */
  datatype Extraction = Extraction(rest: string, matches: seq<Match>)

  predicate IsMatchIn(s: string, m: Match) {
    IsTagAt(s, m.start, m.end) && m.text == s[m.start..m.end]
  }

  function MatchedLength(ms: seq<Match>): nat {
    if ms == [] then 0 else |ms[0].text| + MatchedLength(ms[1..])
  }

  /** A left-to-right scan from position `i` that finds the non-overlapping
      matches the way `re.finditer` does and keeps every character outside
      them. */
  function ScanFrom(s: string, i: nat): (e: Extraction)
    requires i <= |s|
    ensures |e.rest| + MatchedLength(e.matches) == |s| - i
    ensures e.matches == [] ==> e.rest == s[i..]
    decreases |s| - i
  {
    if i == |s| then Extraction([], [])
    else
      var j := WordEnd(s, i);
      if IsTagAt(s, i, j) then
        var tail := ScanFrom(s, j);
        Extraction(tail.rest, [Match(i, j, s[i..j])] + tail.matches)
      else
        var tail := ScanFrom(s, i + 1);
        Extraction([s[i]] + tail.rest, tail.matches)
  }

  /** Every match lies at or after `i` and is a match of the pattern. */
  predicate AllMatchesFrom(s: string, i: int, ms: seq<Match>) {
    forall k | 0 <= k < |ms| :: i <= ms[k].start && IsMatchIn(s, ms[k])
  }

  /** The matches are in order and do not overlap. */
  predicate InOrder(ms: seq<Match>) {
    forall k | 0 <= k < |ms| - 1 :: ms[k].end <= ms[k + 1].start
  }

  /** Putting a match in front of later, ordered matches keeps them sound
      and in order. */
  lemma ConsMatch(s: string, i: int, m: Match, tail: seq<Match>)
    requires i <= m.start && IsMatchIn(s, m)
    requires AllMatchesFrom(s, m.end, tail) && InOrder(tail)
    ensures AllMatchesFrom(s, i, [m] + tail) && InOrder([m] + tail)
  {
    var ms := [m] + tail;
    forall k | 0 < k < |ms|
      ensures ms[k] == tail[k - 1]
    {
    }
  }

  /** The scan finds only matches of the pattern, at or after where it
      starts, in order and without overlap. */
  lemma {:induction false} ScanSound(s: string, i: nat)
    requires i <= |s|
    ensures AllMatchesFrom(s, i, ScanFrom(s, i).matches)
    ensures InOrder(ScanFrom(s, i).matches)
    decreases |s| - i
  {
    if i < |s| {
      var j := WordEnd(s, i);
      if IsTagAt(s, i, j) {
        ScanSound(s, j);
        ConsMatch(s, i, Match(i, j, s[i..j]), ScanFrom(s, j).matches);
      } else {
        ScanSound(s, i + 1);
      }
    }
  }

  /** The scan misses no match: every place the pattern matches at or after
      `k` is among the matches found from `k`. */
  lemma {:induction false} ScanFindsEveryTag(s: string, k: nat, i: int, j: int)
    requires k <= i && IsTagAt(s, i, j)
    ensures Match(i, j, s[i..j]) in ScanFrom(s, k).matches
    decreases |s| - k
  {
    var e := WordEnd(s, k);
    if k == i {
      TagEndsAtWordEnd(s, i, j);
    } else if IsTagAt(s, k, e) {
      // the run found at k stops before the '#' that precedes i
      ScanFindsEveryTag(s, e, i, j);
    } else {
      ScanFindsEveryTag(s, k + 1, i, j);
    }
  }

  function Texts(ms: seq<Match>): (ts: seq<string>)
    ensures |ts| == |ms|
    ensures forall k | 0 <= k < |ms| :: ts[k] == ms[k].text
  {
    if ms == [] then [] else [ms[0].text] + Texts(ms[1..])
  }

  /** `re_extract(TAGS_RE, content)`: the content without the matched spans,
      and the matched texts; without a match the content is unchanged. */
  function ReExtract(content: string): (r: (string, seq<string>))
    ensures r.1 == [] ==> r.0 == content
    ensures |r.0| <= |content|
  {
    var e := ScanFrom(content, 0);
    (e.rest, Texts(e.matches))
  }

  /** Every matched text is a run of word characters. */
  lemma ReExtractWords(content: string)
    ensures forall t | t in ReExtract(content).1 :: IsWord(t)
  {
    var e := ScanFrom(content, 0);
    ScanSound(content, 0);
    forall t | t in Texts(e.matches)
      ensures IsWord(t)
    {
      var k :| 0 <= k < |e.matches| && Texts(e.matches)[k] == t;
      var m := e.matches[k];
      assert IsMatchIn(content, m);
      MatchIsWord(content, m.start, m.end);
    }
  }

  /** The text of a match is a non-empty run of word characters. */
  lemma MatchIsWord(s: string, i: int, j: int)
    requires IsTagAt(s, i, j)
    ensures IsWord(s[i..j])
  {
    var w := s[i..j];
    forall k | 0 <= k < |w|
      ensures IsWordChar(w[k])
    {
      assert w[k] == s[i + k];
    }
  }

  /** The matched texts are exactly the texts at which the pattern matches. */
  lemma ReExtractExact(content: string)
    ensures forall t | t in ReExtract(content).1 :: exists i, j | IsTagAt(content, i, j) :: content[i..j] == t
    ensures forall i, j | IsTagAt(content, i, j) :: content[i..j] in ReExtract(content).1
  {
    var e := ScanFrom(content, 0);
    ScanSound(content, 0);
    assert ReExtract(content).1 == Texts(e.matches);
    forall i, j | IsTagAt(content, i, j)
      ensures content[i..j] in Texts(e.matches)
    {
      ScanFindsEveryTag(content, 0, i, j);
      var k :| 0 <= k < |e.matches| && e.matches[k] == Match(i, j, content[i..j]);
      assert Texts(e.matches)[k] == content[i..j];
    }
    forall t | t in Texts(e.matches)
      ensures exists i, j | IsTagAt(content, i, j) :: content[i..j] == t
    {
      var k :| 0 <= k < |e.matches| && Texts(e.matches)[k] == t;
      assert IsMatchIn(content, e.matches[k]);
    }
  }

  function LowerAll(ts: seq<string>): (r: seq<string>)
    ensures |r| == |ts|
    ensures forall k | 0 <= k < |ts| :: r[k] == Lower(ts[k])
  {
    if ts == [] then [] else [Lower(ts[0])] + LowerAll(ts[1..])
  }

  /** A tag as the index stores it: a non-empty lowercase word. */
  predicate IsTag(t: string) {
    IsWord(t) && IsLowercase(t)
  }

  lemma LowerWordIsTag(w: string)
    requires IsWord(w)
    ensures IsTag(Lower(w))
  {
    LowerIdempotent(w);
  }

  /** The lowercased matches in match order, with repeats: the list
      `extract_tags` builds before making it a set. */
  function TagList(content: string): (tags: seq<string>)
    ensures |tags| == |ReExtract(content).1|
  {
    LowerAll(ReExtract(content).1)
  }

  /** Every entry of the tag list is a tag. */
  lemma TagListTags(content: string)
    ensures forall t | t in TagList(content) :: IsTag(t)
  {
    var matches := ReExtract(content).1;
    var tags := TagList(content);
    ReExtractWords(content);
    forall t | t in tags
      ensures IsTag(t)
    {
      var k :| 0 <= k < |tags| && tags[k] == t;
      assert matches[k] in matches;
      LowerWordIsTag(matches[k]);
    }
  }

  /** A string is in the tag list exactly when it is the lowercase form of
      some match of the pattern. */
  lemma TagListExact(content: string)
    ensures forall t | t in TagList(content) :: exists i, j | IsTagAt(content, i, j) :: Lower(content[i..j]) == t
    ensures forall i, j | IsTagAt(content, i, j) :: Lower(content[i..j]) in TagList(content)
  {
    var matches := ReExtract(content).1;
    var tags := TagList(content);
    ReExtractExact(content);
    forall t | t in tags
      ensures exists i, j | IsTagAt(content, i, j) :: Lower(content[i..j]) == t
    {
      var k :| 0 <= k < |tags| && tags[k] == t;
      assert matches[k] in matches;
      var i, j :| IsTagAt(content, i, j) && content[i..j] == matches[k];
    }
    forall i, j | IsTagAt(content, i, j)
      ensures Lower(content[i..j]) in tags
    {
      var k :| 0 <= k < |matches| && matches[k] == content[i..j];
      assert tags[k] == Lower(content[i..j]);
    }
  }

  /** `extract_tags`: the content with the tags removed, and the set of
      lowercase tags; content without any match comes back unchanged. */
  function ExtractTags(content: string): (r: (string, set<string>))
    ensures r.1 == {} ==> r.0 == content
  {
    var extracted := ReExtract(content);
    var tags := TagList(content);
    var tagSet := set t | t in tags;
    assert |tags| > 0 ==> tags[0] in tagSet;
    (extracted.0, tagSet)
  }

  /** Every extracted tag is a non-empty lowercase word. */
  lemma ExtractedAreTags(content: string)
    ensures forall t | t in ExtractTags(content).1 :: IsTag(t)
  {
    TagListTags(content);
  }

  /** The extracted set holds each string of the tag list, once. */
  lemma ExtractedSetOfList(content: string)
    ensures ExtractTags(content).1 == set t | t in TagList(content)
  {
  }

  /** A tag is in the extracted set exactly when it is the lowercase form of
      some match of the pattern. */
  lemma ExtractTagsExact(content: string)
    ensures forall t | t in ExtractTags(content).1 ::
              exists i, j | IsTagAt(content, i, j) :: Lower(content[i..j]) == t
    ensures forall i, j | IsTagAt(content, i, j) :: Lower(content[i..j]) in ExtractTags(content).1
  {
    TagListExact(content);
  }
}

=== FILE: text.dfy ===
/** Character classes and string helpers shared by the tag extractor, the
    search-term preprocessor, the title rules and the token check. */
module Text {

  /** Python's `str.isspace()`, which is also what the `\s` class of a
      Unicode `re` pattern matches. */
  predicate IsSpace(c: char) {
    || ('\t' <= c <= '\r')
    || ('\U{1c}' <= c <= '\U{1f}')
    || c == ' ' || c == '\U{85}' || c == '\U{a0}' || c == '\U{1680}'
    || ('\U{2000}' <= c <= '\U{200a}')
    || c == '\U{2028}' || c == '\U{2029}' || c == '\U{202f}' || c == '\U{205f}'
    || c == '\U{3000}'
  }

  predicate IsAsciiLetter(c: char) {
    ('a' <= c <= 'z') || ('A' <= c <= 'Z')
  }

  predicate IsDigit(c: char) {
    '0' <= c <= '9'
  }

  /** The `\w` class, restricted to ASCII: letters, digits and underscore. */
  predicate IsWordChar(c: char) {
    IsAsciiLetter(c) || IsDigit(c) || c == '_'
  }

  predicate IsUpper(c: char) {
    'A' <= c <= 'Z'
  }

  /** `str.lower()` on one character (ASCII letters only). */
  function LowerChar(c: char): (d: char)
    ensures !IsUpper(d)
    ensures IsWordChar(c) <==> IsWordChar(d)
    ensures IsSpace(c) <==> IsSpace(d)
    ensures !IsUpper(c) ==> d == c
  {
    if IsUpper(c) then (c as int + 32) as char else c
  }

  function Lower(s: string): (r: string)
    ensures |r| == |s|
    ensures forall i | 0 <= i < |s| :: r[i] == LowerChar(s[i])
  {
    if s == [] then [] else [LowerChar(s[0])] + Lower(s[1..])
  }

  const UpperAlphabet: string := "ABCDEFGHIJKLMNOPQRSTUVWXYZ"
  const LowerAlphabet: string := "abcdefghijklmnopqrstuvwxyz"

  /** Each uppercase ASCII letter becomes the lowercase letter at the same
      place in the alphabet. */
  lemma LowerCharAlphabet(k: nat)
    requires k < 26
    ensures IsUpper(UpperAlphabet[k])
    ensures LowerChar(UpperAlphabet[k]) == LowerAlphabet[k]
  {
  }

  /** A worked example: letters are lowercased, other characters kept. */
  lemma LowerExample()
    ensures Lower("AbZ_9") == "abz_9"
  {
  }

  predicate IsLowercase(s: string) {
    forall i | 0 <= i < |s| :: !IsUpper(s[i])
  }

  predicate IsWord(s: string) {
    |s| > 0 && forall i | 0 <= i < |s| :: IsWordChar(s[i])
  }

  /** No whitespace at either end (the empty string qualifies). */
  predicate IsStripped(s: string) {
    s == [] || (!IsSpace(s[0]) && !IsSpace(s[|s| - 1]))
  }

  lemma LowerIdempotent(s: string)
    ensures Lower(Lower(s)) == Lower(s)
    ensures IsLowercase(Lower(s))
  {
  }

  /** Where `str.lstrip()` stops: the first non-whitespace position at or
      after `i`. */
  function SpaceEnd(s: string, i: nat): (j: nat)
    requires i <= |s|
    ensures i <= j <= |s|
    ensures forall k | i <= k < j :: IsSpace(s[k])
    ensures j < |s| ==> !IsSpace(s[j])
    decreases |s| - i
  {
    if i == |s| || !IsSpace(s[i]) then i else SpaceEnd(s, i + 1)
  }

  /** Where `str.rstrip()` stops, not going below `lo`: the position after
      the last non-whitespace character before `j`. */
  function SpaceStart(s: string, lo: nat, j: nat): (i: nat)
    requires lo <= j <= |s|
    ensures lo <= i <= j
    ensures forall k | i <= k < j :: IsSpace(s[k])
    ensures i > lo ==> !IsSpace(s[i - 1])
    decreases j - lo
  {
    if j == lo || !IsSpace(s[j - 1]) then j else SpaceStart(s, lo, j - 1)
  }

  /** Python's `str.strip()` with no argument: the result is the part of the
      input between its leading and its trailing whitespace. */
  function Strip(s: string): (r: string)
    ensures IsStripped(r)
    ensures |r| <= |s|
    ensures exists a, b | 0 <= a <= b <= |s| ::
              r == s[a..b]
              && (forall k | 0 <= k < a :: IsSpace(s[k]))
              && (forall k | b <= k < |s| :: IsSpace(s[k]))
  {
    var a := SpaceEnd(s, 0);
    var b := SpaceStart(s, a, |s|);
    s[a..b]
  }

  /** Stripping leaves a string without outer whitespace unchanged, so
      stripping twice is stripping once. */
  lemma StripStripped(s: string)
    requires IsStripped(s)
    ensures Strip(s) == s
  {
  }

  lemma StripIdempotent(s: string)
    ensures Strip(Strip(s)) == Strip(s)
  {
    StripStripped(Strip(s));
  }

  predicate EndsWith(s: string, suffix: string) {
    |suffix| <= |s| && s[|s| - |suffix|..] == suffix
  }
}
